=== FILE: README.md ===
# UIDAI smart-queue dashboard: the scoring core in Dafny

The dashboard (`app0.2.py`) is a Streamlit page over a fixed table of five
Aadhaar Seva Kendra (ASK) service centres. Under its widgets it holds a few
pure rules, and this project models and proves them:

- **Demand triggers** (`apply_triggers`). Three toggles add a boost to the
  historical load: government scheme +20, public holiday +10, bank deadline +15.
  - Each centre gets a saturation score `0.4·H + 0.4·(H + boost) + 0.2·Q`,
    clipped to [0, 100] and truncated.
  - Each centre gets a wait estimate `5·Q / (counters · efficiency)`, truncated.
  - Each centre gets a zone: RED above 80, YELLOW above 50, GREEN otherwise.
  - The overview shows the "Critical Centers" KPI (scores above 80) and the
    "Avg Wait Time" KPI.
- **The administrator's strategic alert.** It uses an unboosted, unclipped score
  `0.4·H + 0.4·H + 0.2·Q`. It fires when some centre scores above 70 and some
  centre scores below 50, and it names the first centre above 70.
- **The hourly demand projection.** For hours 9..18 the value is
  `max(15, min(98, (95 − 12·|13 − h|) · m))`, where `m` is 1.35 on Saturday and
  Sunday and 1.0 otherwise. The value for a chosen "HH:00" slot is looked up
  by parsing the hour out of the label.
- **E-token booking.** An empty name does nothing. Otherwise one token is
  appended to the session's list, carrying the selected centre's wait.
- **The centre locator.** It picks the centre at the least distance.

Modules, one per concern:
- `Results`: Option and Result.
- `Numeric`: truncation toward zero, which is Python's `int`. Also clipping,
  sums and argmin/argmax.
- `Decimal`: `f"{n}"` and `int(text)` on digit strings.
- `Centers`: the data model and the shipped table.
- `Scoring`, `Admin`, `Forecast`, `Booking` and `Locator`: the rules above.

All quantities are unbounded integers or exact reals. Truncation toward zero
is written out explicitly. Random numbers, the clock and the weekday of the
chosen date are parameters.

Two consequences of the formulas are worth stating plainly:
- With every trigger on and H = 100, the score is 98 when Q = 0. It reaches
  100 only from Q = 10 upward (`Scoring.SaturationAtExtremes`).
- At zero capacity the wait division gives `inf` or `NaN`, and `astype(int)`
  then raises a `ValueError`, which aborts that rerun of the page. The model
  returns `Err(ZeroCapacity)` there.

## Model

| member | source | states |
|---|---|---|
| `Scoring.Boost` | app0.2.py:150 | The boost is one of 0, 10, 15, 20, 25, 30, 35, 45, so it lies in 0..45. It is 0 exactly when all toggles are off and 45 exactly when all are on. |
| `Scoring.BoostAdditive` | app0.2.py:150 | Each toggle contributes independently. The boost is the sum of the three single-toggle boosts: scheme 20, holiday 10, deadline 15. |
| `Scoring.BoostRoundTrip` | app0.2.py:150 | The eight trigger states give eight distinct boosts, so the "+b%" KPI identifies the toggles that are on. |
| `Scoring.Saturation` | app0.2.py:152 | The score lies in 0..100. On an in-range blend it is the floor of the blend. At or above 100 it is 100, and below 1 it is 0. |
| `Scoring.SaturationMatchesRef` | app0.2.py:152 | The float formula equals an integer-only reference: clamp((4·H + 2·boost + Q) div 5, 0, 100). |
| `Scoring.SaturationMonotoneInBoost` | app0.2.py:150-152 | A larger boost never lowers a centre's score. |
| `Scoring.SaturationMonotoneInLoad` | app0.2.py:152 | A higher historical load or a longer live queue never lowers the score. |
| `Scoring.SaturationAtExtremes` | app0.2.py:152 | With all triggers on and H = 100, the score is 98 when Q = 0 and 100 once Q ≥ 10. |
| `Scoring.SaturationAtZero` | app0.2.py:152 | With no triggers and H = Q = 0 the score is 0. |
| `Scoring.WaitMinutes` | app0.2.py:153 | The result is an error exactly when counters × efficiency is 0. For a positive capacity and Q ≥ 0 the wait w is non-negative and satisfies w·cap ≤ 5·Q < (w+1)·cap, so it is the floor of the quotient. |
| `Scoring.WaitMonotoneInQueue` | app0.2.py:153 | At a fixed positive capacity, a longer queue never shortens the wait estimate. |
| `Numeric.Trunc` | app0.2.py:152 | Truncation toward zero, as `astype(int)` and `int()`: the floor for x ≥ 0, the ceiling for x < 0. |
| `Numeric.Clip` | app0.2.py:152 | The result lies in [lo, hi]: it is x inside the range, lo below it and hi above it, as `.clip(0, 100)` at line 152 and `max(15, min(98, ·))` at line 249. |
| `Scoring.ClassifyZone` | app0.2.py:158 | Every score gets exactly one zone: RED iff > 80, YELLOW iff 50 < s ≤ 80, GREEN iff ≤ 50. |
| `Scoring.ZoneMonotone` | app0.2.py:158 | A higher score never gets a less severe zone. |
| `Scoring.ZoneBoundaries` | app0.2.py:158 | 81 is RED, 80 and 51 are YELLOW, 50 and 0 are GREEN. |
| `Scoring.ScoreAll` | app0.2.py:151-158 | The table succeeds iff every capacity is non-zero. Each row i then holds centre i with its score, its wait and the zone matching its score. Otherwise the error names the first zero-capacity centre. |
| `Scoring.ApplyTriggers` | app0.2.py:143-159 | Returns the scored table, row for row in table order, together with the boost of the trigger state. |
| `Scoring.CountAboveExtremes` | app0.2.py:174 | The count of rows scoring above k is 0 iff no row scores above k, and it is the number of rows iff every row does. |
| `Scoring.CountZoneExtremes` | app0.2.py:158 | The count of rows in a zone is 0 iff no row is in that zone, and it is the number of rows iff every row is. |
| `Scoring.AboveRedIsRed` | app0.2.py:174 | On rows whose zone agrees with their score (line 158), counting scores above 80 counts the RED-zone rows. |
| `Scoring.CriticalCenters` | app0.2.py:174 | The "Critical Centers" loop counts the rows scoring above 80. On a table from the evaluation, that is the number of RED centres. |
| `Scoring.AverageWait` | app0.2.py:173 | The average of an empty table is an error, because `int(NaN)` raises. Otherwise the truncated mean lies between the least and the greatest wait. When every wait is non-negative, it is the sum of the waits divided by their number, rounded down. |
| `Numeric.MeanWithinRange` | app0.2.py:173 | The truncated mean of a non-empty list lies between its least and its greatest element. |
| `Numeric.MeanOfNonNegative` | app0.2.py:173 | The truncated mean of non-negative integers is the integer quotient of their sum by their count. |
| `Scoring.NapierTownSample` | app0.2.py:132-153 | Napier Town with no trigger scores 68 (YELLOW) and waits 88 minutes. |
| `Admin.AdminScore` | app0.2.py:222 | When 4·H + Q ≥ 0, the admin score s satisfies 5·s ≤ 4·H + Q < 5·s + 5, so it is the floor of 0.8·H + 0.2·Q. Below zero `astype(int)` truncates toward zero instead. The score lies in 0..100 when H and Q do. |
| `Admin.AdminIsUnboostedSaturation` | app0.2.py:222 | On in-range data the admin score equals the overview score with no trigger. |
| `Admin.AdminScoreUnclipped` | app0.2.py:222 | The admin score is not clipped: H = 150, Q = 100 gives 140 where the overview score gives 100. |
| `Admin.FirstBreached` | app0.2.py:224-226 | Returns the first position in table order whose score is above 70, or none when no centre scores above 70. |
| `Admin.AnySlack` | app0.2.py:224-225 | True iff some centre scores below 50. |
| `Admin.CapacityAlert` | app0.2.py:224-226 | The alert fires iff some centre scores above 70 and some centre scores below 50. It names the first centre, in table order, above 70. |
| `Admin.BaseTableAlert` | app0.2.py:222-226 | On the shipped table the alert names "ASK - Vijay Nagar". |
| `Forecast.DemandAt` | app0.2.py:249 | Every projected load lies in [15, 98]. |
| `Forecast.Range` | app0.2.py:248 | `range(lo, hi)` has hi − lo elements, lo + i at position i, and is empty when lo ≥ hi. |
| `Forecast.DailyCurve` | app0.2.py:248-249 | The curve has exactly 10 entries, entry i being the load at hour 9 + i, all in [15, 98]. |
| `Forecast.PeakAtThirteen` | app0.2.py:249 | On every day no hour projects more than 13:00. On a weekday 13:00 projects 95, and on a weekend 98. |
| `Forecast.RisingToPeak` | app0.2.py:249 | Up to hour 13 the curve never falls. |
| `Forecast.FallingAfterPeak` | app0.2.py:249 | From hour 13 on the curve never rises. |
| `Forecast.WeekendDominates` | app0.2.py:247-249 | At every hour, inside or outside the forecast window, the weekend load (×1.35) is at least the weekday load. |
| `Forecast.CurveSamples` | app0.2.py:249 | A weekday projects 47 at 09:00 and 35 at 18:00. A weekend projects 63.45 at 09:00. |
| `Forecast.ZeroPadded` | app0.2.py:243 | `f"{h:02d}"` is an all-digit text of at least two characters. |
| `Forecast.SlotOptions` | app0.2.py:243 | The selector offers one label per forecast hour, label i being the one for hour 9 + i. |
| `Forecast.ParseSlotSplit` | app0.2.py:244 | `int(slot.split(":")[0])` succeeds iff the slot opens with a non-empty run of digits that ends at a colon or at the end of the text, and it then yields the value of that run. |
| `Forecast.FieldBeforeColon` | app0.2.py:244 | `split(":")[0]` is a prefix of the text and holds no colon. It stops at the first colon, or runs to the end when there is none. |
| `Forecast.SlotRoundTrip` | app0.2.py:243-244 | Every label `f"{h:02d}:00"` parses back to h. |
| `Forecast.IndexOf` | app0.2.py:256 | `list.index` returns the first position holding the hour. It fails exactly when the hour is absent. |
| `Forecast.ProjectedLoad` | app0.2.py:244-256 | The lookup succeeds iff the label parses to an hour in 9..18. Its value is then the truncated curve value at that hour, in 15..98. |
| `Forecast.SlotLookup` | app0.2.py:243-256 | For every forecast hour, the lookup of its label finds that hour's value. |
| `Forecast.SelectorAlwaysProjects` | app0.2.py:243-256 | Every option the selector offers yields a projection. |
| `Forecast.DefaultSlotProjection` | app0.2.py:243-256 | The default option is 12:00, which a weekday projects at 83. |
| `Decimal.Digits` | app0.2.py:198 | `f"{n}"` is canonical: non-empty, all digits and without a leading zero. It is one character iff n < 10. |
| `Decimal.ParseNat` | app0.2.py:244 | On text of ASCII characters other than whitespace, sign and underscore, `int` succeeds exactly on non-empty all-digit text. |
| `Decimal.ValueOfDigits` | app0.2.py:244 | Reading back the decimal text of n gives n. |
| `Decimal.ParseDigits` | app0.2.py:244 | `int(f"{n}")` is n. |
| `Decimal.ValueLeadingZero` | app0.2.py:243-244 | A leading zero, as in the padded "09", does not change the value. |
| `Decimal.DigitsOfValue` | app0.2.py:244 | Formatting the value of a canonical digit text reproduces the text. |
| `Booking.TokenId` | app0.2.py:198 | The token id is "UID-" followed by four digits that read back as the random draw. |
| `Booking.ServiceTime` | app0.2.py:199 | The expected service time is a minute of the day, in 0..1439. It is clock + wait wrapped to the day: the two differ by a whole number of days, and they are equal when clock + wait is already within the day. |
| `Booking.FirstNamed` | app0.2.py:197 | Returns the position of the first row with the selected centre's name. It is absent exactly when no row has that name. |
| `Booking.WaitAt` | app0.2.py:197 | The wait looked up is the wait of the first row with the selected centre's name. It is absent exactly when no row has that name. |
| `Booking.Book` | app0.2.py:195-199 | An empty name leaves the list unchanged. Otherwise, if the centre is found, exactly one token is appended and earlier tokens are unchanged. The new token carries the id, the requester's name, the selected centre, that centre's wait and the matching service time. If the centre is not found, the result is an error. |
| `Booking.SessionAppendOnly` | app0.2.py:195-199 | Over any run of bookings, earlier tokens keep their place and value. One token is added per issuing request, and every added token has a non-empty name. |
| `Locator.Nearest` | app0.2.py:212 | Returns a position of a least distance, or nothing for an empty table. No tie-break is promised. |
| `Locator.NearestCenter` | app0.2.py:211-212 | Reports the name and distance of a centre no farther than any other. It reports nothing for an empty table. |

## Left out

- Page configuration, CSS, sidebar widgets, columns, tabs, buttons and messages (app0.2.py:13-41, 112-121): presentation only.
- The English/Hindi string dictionary and the localized zone labels (app0.2.py:46-107, 155-157): presentation only. Zones are an enum.
- All charts, and the hard-coded weekly, monthly and regional chart series (app0.2.py:183, 228, 252-254, 263-271): display data without logic.
- `calculate_distance` (app0.2.py:124-128): haversine trigonometry over IEEE floats. The locator takes one distance per centre as input.
- The role selector guarding the admin page (app0.2.py:217): a display toggle, not access control.
- The random draw of `np.random.randint` and the clock of `datetime.now()` (app0.2.py:198-199, 277): nondeterministic. Both are parameters.
- The calendar step `strftime("%A")` from the chosen date to a weekday (app0.2.py:246): the weekday is a parameter.
- IEEE-754 rounding: the model uses exact reals. Wherever a float formula lands just below an integer, `astype(int)` or `int` would give one less than the exact floor modelled here.
- Scoring.ScoreAll: pandas raises one exception for the whole wait column, and that exception does not name a centre. The model's error names the first zero-capacity centre.
- Decimal.ParseNat: Python's `int` also accepts surrounding whitespace, a sign, digit-group underscores and non-ASCII decimal digits (such as "١٢" or "１２"). Slot labels never contain them, so only plain digit strings are modelled.
- Booking.Book: the token's "Wait" is shown as the text `f"{wait}m"` and its "Time" as `"HH:MM"`. The model keeps the integer wait and the minute of the day.
- Streamlit reruns: each button press is one `Booking.Request`. An exception ends that rerun and leaves the session list as it was, which is how `Booking.Step` treats a failed lookup.
- Ordering of the located centre among equal distances: pandas' default sort is not stable, so no tie-break is modelled.

=== FILE: admin.dfy ===
/** The administrator's "capacity breached" alert. It scores centres without
    the trigger boost and without clipping, and raises a strategic alert when
    one centre is over capacity while another has slack. */
module Admin {
  import opened Results
  import opened Numeric
  import opened Centers
  import Scoring

  /** A centre scoring above this is over capacity. */
  const BreachAbove: int := 70
  /** A centre scoring below this has spare capacity. */
  const SlackBelow: int := 50

  /** The admin score: 0.4·H + 0.4·H + 0.2·Q, truncated, neither boosted nor clipped. */
  function AdminScore(c: Center): (s: int)
    ensures 0 <= c.historicalLoad <= 100 && 0 <= c.realtimeQueue <= 100 ==> 0 <= s <= 100
    ensures 0 <= 4 * c.historicalLoad + c.realtimeQueue ==>
              5 * s <= 4 * c.historicalLoad + c.realtimeQueue < 5 * s + 5
  {
    var raw := 0.4 * c.historicalLoad as real + 0.4 * c.historicalLoad as real + 0.2 * c.realtimeQueue as real;
    var num := 4 * c.historicalLoad + c.realtimeQueue;
    assert raw * 5.0 == num as real;
    Trunc(raw)
  }

  /** On in-range data the admin score is the overview score with every
      trigger off. */
  lemma AdminIsUnboostedSaturation(c: Center)
    requires 0 <= c.historicalLoad <= 100 && 0 <= c.realtimeQueue <= 100
    ensures AdminScore(c) == Scoring.Saturation(c, Scoring.Boost(NoTriggers))
  {
    Scoring.SaturationMatchesRef(c, 0);
  }

  /** Outside the range the two differ: the admin score is not clipped. */
  lemma AdminScoreUnclipped(c: Center)
    requires c.historicalLoad == 150 && c.realtimeQueue == 100
    ensures AdminScore(c) == 140
    ensures Scoring.Saturation(c, Scoring.Boost(NoTriggers)) == 100
  {
    Scoring.SaturationMatchesRef(c, 0);
  }

  predicate Breached(c: Center) {
    AdminScore(c) > BreachAbove
  }

  predicate HasSlack(c: Center) {
    AdminScore(c) < SlackBelow
  }

  /** Position of the first breached centre in table order. */
  function FirstBreached(cs: seq<Center>): (r: Option<nat>)
    ensures r.None? <==> forall k :: 0 <= k < |cs| ==> !Breached(cs[k])
    ensures r.Some? ==> r.value < |cs| && Breached(cs[r.value])
                        && forall k :: 0 <= k < r.value ==> !Breached(cs[k])
    decreases |cs|
  {
    if |cs| == 0 then None
    else if Breached(cs[0]) then Some(0)
    else
      match FirstBreached(cs[1..])
      case None => None
      case Some(i) => Some(i + 1)
  }

  /** Whether some centre has slack. */
  function AnySlack(cs: seq<Center>): (b: bool)
    ensures b <==> exists k :: 0 <= k < |cs| && HasSlack(cs[k])
    decreases |cs|
  {
    if |cs| == 0 then false
    else HasSlack(cs[0]) || AnySlack(cs[1..])
  }

  /** The strategic alert: the name of the first breached centre, raised only
      when some centre is breached and some centre has slack. */
  function CapacityAlert(cs: seq<Center>): (r: Option<string>)
    ensures r.Some? <==> (exists i :: 0 <= i < |cs| && Breached(cs[i]))
                         && (exists j :: 0 <= j < |cs| && HasSlack(cs[j]))
    ensures r.Some? ==> exists i :: 0 <= i < |cs| && Breached(cs[i]) && r.value == cs[i].name
                                    && forall k :: 0 <= k < i ==> !Breached(cs[k])
  {
    match FirstBreached(cs)
    case None => None
    case Some(i) => if AnySlack(cs) then Some(cs[i].name) else None
  }

  /** On the shipped table the alert names Vijay Nagar (score 87) while
      Wright Town (39) and GCF Jabalpur (28) have slack. */
  lemma BaseTableAlert()
    ensures CapacityAlert(BaseTable) == Some("ASK - Vijay Nagar")
  {
    assert AdminScore(BaseTable[0]) == 68;
    assert AdminScore(BaseTable[1]) == 39;
    assert AdminScore(BaseTable[2]) == 87;
    assert FirstBreached(BaseTable) == Some(2);
    assert HasSlack(BaseTable[1]);
  }
}

=== FILE: booking.dfy ===
/** E-token booking on the citizen portal: a request with a non-empty name
    appends exactly one token to the session's token list, carrying the
    selected centre's current wait estimate. */
module Booking {
  import opened Results
  import opened Decimal
  import opened Scoring

  const IdPrefix: string := "UID-"
  /** The random id draw lies from 1000 up to, not including, 9999. */
  const DrawLow: nat := 1000
  const DrawHigh: nat := 9999
  const MinutesPerDay: int := 1440

  /** One issued e-token. `serviceTime` is the minute of the day shown as the
      "HH:MM" at which service is expected. */
  datatype Token = Token(id: string, name: string, center: string, wait: int, serviceTime: int)

  datatype BookingError = UnknownCenter(center: string)  // the wait lookup finds no row

  /** The token id: "UID-" and the decimal text of the draw, which reads back
      as the draw. */
  function TokenId(draw: nat): (id: string)
    requires DrawLow <= draw < DrawHigh
    ensures |id| == 8 && id[..4] == IdPrefix
    ensures ParseNat(id[4..]) == Some(draw)
  {
    var ds := Digits(draw);
    assert |Digits(draw / 1000)| == 1;
    assert |Digits(draw / 100)| == 2;
    assert |Digits(draw / 10)| == 3;
    assert |ds| == 4;
    ParseDigits(draw);
    assert (IdPrefix + ds)[4..] == ds;
    IdPrefix + ds
  }

  /** Minute of the day `wait` minutes after the clock reading `clock`
      (minutes since any midnight), as `strftime("%H:%M")` shows it. */
  function ServiceTime(clock: int, wait: int): (m: int)
    ensures 0 <= m < MinutesPerDay
    ensures 0 <= clock + wait < MinutesPerDay ==> m == clock + wait
    ensures (clock + wait - m) % MinutesPerDay == 0
  {
    (clock + wait) % MinutesPerDay
  }

  /** Position of the first row whose centre is named `center`. */
  function FirstNamed(rows: seq<Scored>, center: string): (r: Option<nat>)
    ensures r.None? <==> forall k :: 0 <= k < |rows| ==> rows[k].center.name != center
    ensures r.Some? ==> r.value < |rows| && rows[r.value].center.name == center
                        && forall k :: 0 <= k < r.value ==> rows[k].center.name != center
    decreases |rows|
  {
    if |rows| == 0 then None
    else if rows[0].center.name == center then Some(0)
    else
      match FirstNamed(rows[1..], center)
      case None => None
      case Some(i) => Some(i + 1)
  }

  /** The wait of the first row whose centre is named `center`; `None` where
      the dashboard's row lookup would find no row. */
  function WaitAt(rows: seq<Scored>, center: string): (r: Option<int>)
    ensures r.None? <==> forall k :: 0 <= k < |rows| ==> rows[k].center.name != center
    ensures r.Some? ==> exists i :: 0 <= i < |rows| && rows[i].center.name == center && r.value == rows[i].wait
                                    && forall k :: 0 <= k < i ==> rows[k].center.name != center
  {
    match FirstNamed(rows, center)
    case None => None
    case Some(i) => Some(rows[i].wait)
  }

  /** Pressing "Book Appointment": an empty name changes nothing; otherwise one
      token is appended (or the lookup of the selected centre fails). */
  function Book(tokens: seq<Token>, rows: seq<Scored>, selected: string, userName: string,
                draw: nat, clock: int): (r: Result<seq<Token>, BookingError>)
    requires DrawLow <= draw < DrawHigh
    ensures userName == "" ==> r == Ok(tokens)
    ensures userName != "" ==>
              (r.Ok? <==> exists i :: 0 <= i < |rows| && rows[i].center.name == selected)
    ensures r.Err? ==> r.error == UnknownCenter(selected)
    ensures r.Ok? && userName != "" ==>
              && |r.value| == |tokens| + 1
              && r.value[..|tokens|] == tokens
              && r.value[|tokens|].id == TokenId(draw)
              && r.value[|tokens|].name == userName
              && r.value[|tokens|].center == selected
              && r.value[|tokens|].serviceTime == ServiceTime(clock, r.value[|tokens|].wait)
              && exists i :: 0 <= i < |rows| && rows[i].center.name == selected
                             && r.value[|tokens|].wait == rows[i].wait
                             && forall k :: 0 <= k < i ==> rows[k].center.name != selected
  {
    if userName == "" then Ok(tokens)
    else
      match WaitAt(rows, selected)
      case None => Err(UnknownCenter(selected))
      case Some(w) =>
        var t := Token(TokenId(draw), userName, selected, w, ServiceTime(clock, w));
        assert (tokens + [t])[..|tokens|] == tokens;
        Ok(tokens + [t])
  }

  // ---------------------------------------------------------------- session

  /** One press of the booking button, with the scored table it saw, the id
      draw and the clock reading of that moment. */
  datatype Request = Request(rows: seq<Scored>, selected: string, userName: string, draw: nat, clock: int)

  predicate ValidDraw(q: Request) {
    DrawLow <= q.draw < DrawHigh
  }

  /** A request that issues a token. */
  predicate Issues(q: Request) {
    q.userName != "" && exists i :: 0 <= i < |q.rows| && q.rows[i].center.name == q.selected
  }

  /** One request's effect on the session list; a failed lookup leaves it as
      it was. */
  function Step(tokens: seq<Token>, q: Request): seq<Token>
    requires ValidDraw(q)
  {
    match Book(tokens, q.rows, q.selected, q.userName, q.draw, q.clock)
    case Ok(ts) => ts
    case Err(_) => tokens
  }

  /** The token list after a sequence of requests. */
  function Session(tokens: seq<Token>, qs: seq<Request>): seq<Token>
    requires forall i :: 0 <= i < |qs| ==> ValidDraw(qs[i])
    decreases |qs|
  {
    if |qs| == 0 then tokens else Session(Step(tokens, qs[0]), qs[1..])
  }

  /** Number of requests that issue a token. */
  function Issued(qs: seq<Request>): nat
    decreases |qs|
  {
    if |qs| == 0 then 0 else (if Issues(qs[0]) then 1 else 0) + Issued(qs[1..])
  }

  /** The session list only grows: earlier tokens stay as they were, one token
      is added per issuing request, and every added token names its requester. */
  lemma {:induction false} SessionAppendOnly(tokens: seq<Token>, qs: seq<Request>)
    requires forall i :: 0 <= i < |qs| ==> ValidDraw(qs[i])
    ensures |Session(tokens, qs)| == |tokens| + Issued(qs)
    ensures Session(tokens, qs)[..|tokens|] == tokens
    ensures forall k :: |tokens| <= k < |Session(tokens, qs)| ==> Session(tokens, qs)[k].name != ""
    decreases |qs|
  {
    if |qs| > 0 {
      var next := Step(tokens, qs[0]);
      assert |next| == |tokens| + (if Issues(qs[0]) then 1 else 0);
      assert next[..|tokens|] == tokens;
      assert forall k :: |tokens| <= k < |next| ==> next[k].name != "";
      SessionAppendOnly(next, qs[1..]);
      var s := Session(tokens, qs);
      assert s == Session(next, qs[1..]);
      assert s[..|tokens|] == s[..|next|][..|tokens|];
      forall k | |tokens| <= k < |s|
        ensures s[k].name != ""
      {
        if k < |next| {
          assert s[k] == s[..|next|][k];
        }
      }
    }
  }
}

=== FILE: centers.dfy ===
/** The reference data of the dashboard: service centres (ASK, Aadhaar Seva
    Kendra), the demand triggers an operator can switch on, and the zones a
    centre is classified into. */
module Centers {

  /** One row of the centre table. Loads and queue lengths are percentages
      kept as integers, as in the table; efficiency and coordinates are reals. */
  datatype Center = Center(
    name: string,
    historicalLoad: int,
    realtimeQueue: int,
    activeCounters: int,
    staffEfficiency: real,
    latitude: real,
    longitude: real)

  /** The three demand-trigger toggles: a government scheme, a public holiday,
      a bank deadline. */
  datatype Triggers = Triggers(scheme: bool, holiday: bool, deadline: bool)

  const NoTriggers: Triggers := Triggers(false, false, false)

  /** Zone status, independent of the display language. */
  datatype Zone = Green | Yellow | Red

  /** Severity order of the zones. */
  function Severity(z: Zone): nat {
    match z
    case Green => 0
    case Yellow => 1
    case Red => 2
  }

  /** The five centres the dashboard ships with, in table order. */
  const BaseTable: seq<Center> := [
    Center("ASK - Napier Town", 65, 80, 5, 0.9, 23.168, 79.932),
    Center("ASK - Wright Town", 40, 35, 3, 0.85, 23.163, 79.928),
    Center("ASK - Vijay Nagar", 85, 95, 6, 0.95, 23.201, 79.895),
    Center("ASK - Ranjhi", 50, 55, 4, 0.7, 23.185, 79.980),
    Center("ASK - GCF Jabalpur", 30, 20, 2, 0.8, 23.190, 79.960)
  ]
}

=== FILE: decimal.dfy ===
/** Decimal text of non-negative integers: the `f"{n}"` formatting used for
    token ids and slot labels, and the `int(text)` parsing used for slots. */
module Decimal {
  import opened Results

  predicate IsDigit(c: char) {
    '0' <= c <= '9'
  }

  predicate AllDigits(s: string) {
    forall i :: 0 <= i < |s| ==> IsDigit(s[i])
  }

  function DigitChar(d: nat): (c: char)
    requires d < 10
    ensures IsDigit(c)
  {
    (48 + d) as char
  }

  function DigitValue(c: char): (d: nat)
    requires IsDigit(c)
    ensures d < 10
  {
    c as int - 48
  }

  /** Canonical decimal text: at least one digit and no leading zero. */
  predicate Canonical(s: string) {
    |s| >= 1 && AllDigits(s) && (|s| > 1 ==> s[0] != '0')
  }

  /** `f"{n}"` for a non-negative integer. */
  function Digits(n: nat): (s: string)
    ensures Canonical(s)
    ensures n < 10 <==> |s| == 1
    decreases n
  {
    if n < 10 then [DigitChar(n)] else Digits(n / 10) + [DigitChar(n % 10)]
  }

  /** The number an all-digit text denotes, read most significant digit first. */
  function Value(s: string): nat
    requires AllDigits(s)
    decreases |s|
  {
    if |s| == 0 then 0 else Value(s[..|s| - 1]) * 10 + DigitValue(s[|s| - 1])
  }

  /** `int(s)` restricted to plain digit strings: `None` where Python raises
      `ValueError` (an empty text or a character that is not a digit). */
  function ParseNat(s: string): (r: Option<nat>)
    ensures r.Some? <==> |s| >= 1 && AllDigits(s)
  {
    if |s| >= 1 && AllDigits(s) then Some(Value(s)) else None
  }

  /** Reading back the decimal text of a number gives the number. */
  lemma {:induction false} ValueOfDigits(n: nat)
    ensures Value(Digits(n)) == n
    decreases n
  {
    if n >= 10 {
      var p := Digits(n / 10);
      var s := Digits(n);
      assert s[..|s| - 1] == p;
      ValueOfDigits(n / 10);
    }
  }

  lemma ParseDigits(n: nat)
    ensures ParseNat(Digits(n)) == Some(n)
  {
    ValueOfDigits(n);
  }

  /** Leading zeros do not change the value, so zero padding is harmless. */
  lemma {:induction false} ValueLeadingZero(s: string)
    requires AllDigits(s)
    ensures AllDigits("0" + s) && Value("0" + s) == Value(s)
    decreases |s|
  {
    var t := "0" + s;
    if |s| > 0 {
      assert t[..|t| - 1] == "0" + s[..|s| - 1];
      ValueLeadingZero(s[..|s| - 1]);
    }
  }

  /** A text of zeros only denotes zero, and only such a text does. */
  lemma {:induction false} ValueZero(s: string)
    requires AllDigits(s)
    ensures Value(s) == 0 <==> forall i :: 0 <= i < |s| ==> s[i] == '0'
    decreases |s|
  {
    if |s| > 0 {
      var p := s[..|s| - 1];
      ValueZero(p);
      if Value(s) == 0 {
        assert Value(p) == 0;
        forall i | 0 <= i < |s|
          ensures s[i] == '0'
        {
          if i < |s| - 1 {
            assert s[i] == p[i];
          }
        }
      }
    }
  }

  /** Canonical decimal texts are exactly the images of `Digits`: formatting
      the value of a canonical text reproduces the text. */
  lemma {:induction false} DigitsOfValue(s: string)
    requires Canonical(s)
    ensures Digits(Value(s)) == s
    decreases |s|
  {
    if |s| == 1 {
      assert DigitChar(DigitValue(s[0])) == s[0];
    } else {
      var p := s[..|s| - 1];
      assert Canonical(p) by {
        assert p[0] == s[0];
      }
      ValueZero(p);
      assert p[0] != '0';
      assert Value(p) >= 1;
      var n := Value(s);
      var d := DigitValue(s[|s| - 1]);
      assert n / 10 == Value(p) && n % 10 == d;
      DigitsOfValue(p);
      assert DigitChar(d) == s[|s| - 1];
      assert s == p + [s[|s| - 1]];
    }
  }
}

=== FILE: forecast.dfy ===
/** The hourly demand projection of the forecast page: a linear curve peaking
    at 13:00, raised on weekends and clamped, and the lookup of the value for
    the time slot the user picks from its "HH:00" label. */
module Forecast {
  import opened Results
  import opened Numeric
  import opened Decimal

  datatype Weekday = Monday | Tuesday | Wednesday | Thursday | Friday | Saturday | Sunday

  predicate IsWeekend(d: Weekday) {
    d == Saturday || d == Sunday
  }

  const OpeningHour: nat := 9
  /** Exclusive end of the forecast hours, as in `range(9, 19)`. */
  const ClosingHour: nat := 19
  const PeakHour: int := 13
  const PeakLoad: int := 95
  /** Load percentage lost per hour of distance from the peak. */
  const DropPerHour: int := 12
  const WeekendMultiplier: real := 1.35
  const MinLoad: real := 15.0
  const MaxLoad: real := 98.0

  function Multiplier(d: Weekday): real {
    if IsWeekend(d) then WeekendMultiplier else 1.0
  }

  /** The weekday curve before clamping: 95 − 12·|13 − h|. */
  function BaseDemand(h: int): int {
    PeakLoad - Abs(PeakHour - h) * DropPerHour
  }

  /** Projected load at hour `h`: `max(15, min(98, base · multiplier))`. */
  function DemandAt(h: int, d: Weekday): (v: real)
    ensures MinLoad <= v <= MaxLoad
  {
    Clip(BaseDemand(h) as real * Multiplier(d), MinLoad, MaxLoad)
  }

  /** Python's `range(lo, hi)`. */
  function Range(lo: int, hi: int): (r: seq<int>)
    ensures |r| == (if lo <= hi then hi - lo else 0)
    ensures forall i :: 0 <= i < |r| ==> r[i] == lo + i
  {
    if lo < hi then seq(hi - lo, i requires 0 <= i < hi - lo => lo + i) else []
  }

  /** The forecast hours 9, 10, …, 18. */
  function Hours(): seq<int> {
    Range(OpeningHour, ClosingHour)
  }

  /** The projected loads for the forecast hours, in hour order. */
  function DailyCurve(d: Weekday): (curve: seq<real>)
    ensures |curve| == |Hours()| == 10
    ensures forall i :: 0 <= i < |curve| ==> curve[i] == DemandAt(OpeningHour + i, d)
    ensures forall i :: 0 <= i < |curve| ==> MinLoad <= curve[i] <= MaxLoad
  {
    var hs := Hours();
    seq(|hs|, i requires 0 <= i < |hs| => DemandAt(hs[i], d))
  }

  // ----------------------------------------------------------- curve shape

  /** Hour 13 is a maximum of the curve on every day; on a weekday it is 95,
      on a weekend the clamp at 98. */
  lemma PeakAtThirteen(h: int, d: Weekday)
    ensures DemandAt(h, d) <= DemandAt(PeakHour, d)
    ensures !IsWeekend(d) ==> DemandAt(PeakHour, d) == 95.0
    ensures IsWeekend(d) ==> DemandAt(PeakHour, d) == 98.0
  {
    ClipMonotone(BaseDemand(h) as real * Multiplier(d), BaseDemand(PeakHour) as real * Multiplier(d), MinLoad, MaxLoad);
  }

  /** The curve never falls during the morning, up to the peak. */
  lemma RisingToPeak(h1: int, h2: int, d: Weekday)
    requires h1 <= h2 <= PeakHour
    ensures DemandAt(h1, d) <= DemandAt(h2, d)
  {
    ClipMonotone(BaseDemand(h1) as real * Multiplier(d), BaseDemand(h2) as real * Multiplier(d), MinLoad, MaxLoad);
  }

  /** The curve never rises after the peak. */
  lemma FallingAfterPeak(h1: int, h2: int, d: Weekday)
    requires PeakHour <= h1 <= h2
    ensures DemandAt(h2, d) <= DemandAt(h1, d)
  {
    ClipMonotone(BaseDemand(h2) as real * Multiplier(d), BaseDemand(h1) as real * Multiplier(d), MinLoad, MaxLoad);
  }

  /** At every hour a weekend projects at least the weekday load; where the
      base demand is negative both clip to the minimum load. */
  lemma WeekendDominates(h: int, weekend: Weekday, weekday: Weekday)
    requires IsWeekend(weekend) && !IsWeekend(weekday)
    ensures DemandAt(h, weekday) <= DemandAt(h, weekend)
  {
    if BaseDemand(h) >= 0 {
      ClipMonotone(BaseDemand(h) as real * 1.0, BaseDemand(h) as real * WeekendMultiplier, MinLoad, MaxLoad);
    }
  }

  /** Sample values: weekday 09:00 is 95 − 48 = 47; weekend 09:00 is 47·1.35. */
  lemma CurveSamples()
    ensures DemandAt(9, Monday) == 47.0
    ensures DemandAt(9, Sunday) == 63.45
    ensures DemandAt(18, Monday) == 35.0
  {
  }

  // ------------------------------------------------------------ slot labels

  /** `f"{h:02d}"`: the decimal text of `h`, zero-padded to two characters. */
  function ZeroPadded(h: nat): (s: string)
    ensures |s| >= 2 && AllDigits(s)
  {
    if h < 10 then "0" + Digits(h) else Digits(h)
  }

  /** The slot label `f"{h:02d}:00"`. */
  function SlotLabel(h: nat): string {
    ZeroPadded(h) + ":00"
  }

  /** The slots offered in the time-slot selector, one per forecast hour. */
  function SlotOptions(): (opts: seq<string>)
    ensures |opts| == |Hours()|
    ensures forall i :: 0 <= i < |opts| ==> opts[i] == SlotLabel(OpeningHour + i)
  {
    seq(ClosingHour - OpeningHour, i requires 0 <= i < ClosingHour - OpeningHour => SlotLabel(OpeningHour + i))
  }

  /** Position of the selector's default choice. */
  const DefaultSlotIndex: nat := 3

  /** `s.split(":")[0]`: the text before the first colon, or all of it. */
  function FieldBeforeColon(s: string): (r: string)
    ensures |r| <= |s| && r == s[..|r|]
    ensures forall i :: 0 <= i < |r| ==> r[i] != ':'
    ensures |r| < |s| ==> s[|r|] == ':'
    decreases |s|
  {
    if |s| == 0 || s[0] == ':' then "" else [s[0]] + FieldBeforeColon(s[1..])
  }

  /** `int(slot.split(":")[0])`; `None` where `int` raises. */
  function ParseSlot(slot: string): Option<nat> {
    ParseNat(FieldBeforeColon(slot))
  }

  /** A field is a non-empty run of digits ending at a colon or at the end
      of the text. */
  predicate DigitField(slot: string, k: int) {
    1 <= k <= |slot| && AllDigits(slot[..k]) && (k == |slot| || slot[k] == ':')
  }

  /** The slot parses exactly when it opens with a digit field, and then to
      that field's value; a digit field holds no colon, so there is at most one. */
  lemma ParseSlotSplit(slot: string)
    ensures ParseSlot(slot).Some? <==> exists k :: DigitField(slot, k)
    ensures forall k :: DigitField(slot, k) ==> ParseSlot(slot) == Some(Value(slot[..k]))
  {
    var f := FieldBeforeColon(slot);
    if ParseSlot(slot).Some? {
      assert DigitField(slot, |f|);
    }
    forall k | DigitField(slot, k)
      ensures ParseSlot(slot) == Some(Value(slot[..k]))
    {
      assert FieldBeforeColon(slot) == slot[..k];
    }
  }

  lemma {:induction false} FieldBeforeColonOfDigits(p: string, rest: string)
    requires AllDigits(p)
    ensures FieldBeforeColon(p + ":" + rest) == p
    decreases |p|
  {
    var s := p + ":" + rest;
    if |p| > 0 {
      assert s[1..] == p[1..] + ":" + rest;
      FieldBeforeColonOfDigits(p[1..], rest);
    }
  }

  /** Every slot label parses back to its hour. */
  lemma SlotRoundTrip(h: nat)
    ensures ParseSlot(SlotLabel(h)) == Some(h)
  {
    FieldBeforeColonOfDigits(ZeroPadded(h), "00");
    assert SlotLabel(h) == ZeroPadded(h) + ":" + "00";
    ValueOfDigits(h);
    if h < 10 {
      ValueLeadingZero(Digits(h));
    }
  }

  // ----------------------------------------------------------------- lookup

  datatype ForecastError =
    | UnparsableSlot(text: string)  // `int` rejects the text before the colon
    | HourNotForecast(hour: nat)     // `list.index` finds no such hour

  /** `xs.index(x)`: the first position of `x`, `None` where Python raises. */
  function IndexOf(xs: seq<int>, x: int): (r: Option<nat>)
    ensures r.None? <==> x !in xs
    ensures r.Some? ==> r.value < |xs| && xs[r.value] == x
                        && forall k :: 0 <= k < r.value ==> xs[k] != x
    decreases |xs|
  {
    if |xs| == 0 then None
    else if xs[0] == x then Some(0)
    else
      match IndexOf(xs[1..], x)
      case None => None
      case Some(i) => Some(i + 1)
  }

  /** The projected load reported for the chosen slot: the curve value at the
      slot's hour, truncated to an integer. */
  function ProjectedLoad(slot: string, d: Weekday): (r: Result<int, ForecastError>)
    ensures r.Ok? <==> ParseSlot(slot).Some? && OpeningHour <= ParseSlot(slot).value < ClosingHour
    ensures r.Ok? ==> r.value == Trunc(DemandAt(ParseSlot(slot).value, d))
    ensures r.Ok? ==> 15 <= r.value <= 98
  {
    match ParseSlot(slot)
    case None => Err(UnparsableSlot(slot))
    case Some(h) =>
      assert OpeningHour <= h < ClosingHour ==> Hours()[h - OpeningHour] == h;
      match IndexOf(Hours(), h)
      case None => Err(HourNotForecast(h))
      case Some(i) =>
        var v := DailyCurve(d)[i];
        TruncMonotone(MinLoad, v);
        TruncMonotone(v, MaxLoad);
        Ok(Trunc(v))
  }

  /** The lookup always finds the hour of any forecast slot label. */
  lemma SlotLookup(h: nat, d: Weekday)
    requires OpeningHour <= h < ClosingHour
    ensures ProjectedLoad(SlotLabel(h), d) == Ok(Trunc(DemandAt(h, d)))
  {
    SlotRoundTrip(h);
  }

  /** Every option of the selector yields a projection. */
  lemma SelectorAlwaysProjects(i: nat, d: Weekday)
    requires i < |SlotOptions()|
    ensures ProjectedLoad(SlotOptions()[i], d).Ok?
  {
    SlotLookup(OpeningHour + i, d);
  }

  /** The selector's default slot is 12:00, which a weekday projects at 83. */
  lemma DefaultSlotProjection(d: Weekday)
    requires !IsWeekend(d)
    ensures SlotOptions()[DefaultSlotIndex] == SlotLabel(12)
    ensures ProjectedLoad(SlotLabel(12), d) == Ok(83)
  {
    SlotLookup(12, d);
    assert DemandAt(12, d) == 83.0;
    TruncOfInt(83);
  }
}

=== FILE: locator.dfy ===
/** The centre locator: the centre nearest to the user's position. The
    great-circle distances are inputs here, one per centre in table order. */
module Locator {
  import opened Results
  import opened Centers

  /** Position of a least distance; on ties any least one may be chosen. */
  method Nearest(dists: seq<real>) returns (r: Option<nat>)
    ensures r.None? <==> |dists| == 0
    ensures r.Some? ==> r.value < |dists| && forall j :: 0 <= j < |dists| ==> dists[r.value] <= dists[j]
  {
    if |dists| == 0 {
      return None;
    }
    var best := 0;
    var i := 1;
    while i < |dists|
      invariant 1 <= i <= |dists|
      invariant best < i
      invariant forall j :: 0 <= j < i ==> dists[best] <= dists[j]
    {
      if dists[i] < dists[best] {
        best := i;
      }
      i := i + 1;
    }
    return Some(best);
  }

  /** The name and distance reported as the nearest centre; `None` where the
      first row of an empty sorted table does not exist. */
  method NearestCenter(cs: seq<Center>, dists: seq<real>) returns (r: Option<(string, real)>)
    requires |dists| == |cs|
    ensures r.None? <==> |cs| == 0
    ensures r.Some? ==> exists i :: 0 <= i < |cs| && r.value == (cs[i].name, dists[i])
                                    && forall j :: 0 <= j < |cs| ==> dists[i] <= dists[j]
  {
    var k := Nearest(dists);
    match k
    case None =>
      r := None;
    case Some(i) =>
      r := Some((cs[i].name, dists[i]));
  }
}

=== FILE: numeric.dfy ===
/** The numeric conversions the dashboard applies to its float formulas. */
module Numeric {

  /** Python's `int(x)` and pandas' `astype(int)` on a finite float:
      truncation toward zero. */
  function Trunc(x: real): (n: int)
    ensures 0.0 <= x ==> 0 <= n && n as real <= x < n as real + 1.0
    ensures x < 0.0 ==> n <= 0 && n as real - 1.0 < x <= n as real
  {
    if x >= 0.0 then x.Floor else -((-x).Floor)
  }

  /** On the non-negative quantities of the dashboard truncation is the floor. */
  lemma TruncIsFloor(x: real)
    requires 0.0 <= x
    ensures Trunc(x) == x.Floor
  {
  }

  lemma TruncOfInt(n: int)
    ensures Trunc(n as real) == n
  {
  }

  /** Truncation toward zero never reverses an ordering. */
  lemma TruncMonotone(x: real, y: real)
    requires x <= y
    ensures Trunc(x) <= Trunc(y)
  {
  }

  /** pandas' `clip(lo, hi)`; also Python's `max(lo, min(hi, x))` when lo <= hi. */
  function Clip(x: real, lo: real, hi: real): (r: real)
    requires lo <= hi
    ensures lo <= r <= hi
    ensures lo <= x <= hi ==> r == x
    ensures x < lo ==> r == lo
    ensures hi < x ==> r == hi
  {
    if x < lo then lo else if x > hi then hi else x
  }

  lemma ClipMonotone(x: real, y: real, lo: real, hi: real)
    requires lo <= hi && x <= y
    ensures Clip(x, lo, hi) <= Clip(y, lo, hi)
  {
  }

  /** The integer counterpart of `Clip`: it keeps the reference score formula
      in integer arithmetic, independent of the real-valued one it checks. */
  function ClampInt(n: int, lo: int, hi: int): (r: int)
    requires lo <= hi
    ensures lo <= r <= hi
    ensures lo <= n <= hi ==> r == n
    ensures n < lo ==> r == lo
    ensures hi < n ==> r == hi
  {
    if n < lo then lo else if n > hi then hi else n
  }

  function Abs(n: int): (r: nat)
    ensures r == n || r == -n
  {
    if n < 0 then -n else n
  }

  /** Dividing both sides of an inequality by a positive factor. */
  lemma CancelFactor(a: real, b: real, d: real)
    requires 0.0 < d
    ensures a * d <= b * d ==> a <= b
    ensures a * d < b * d ==> a < b
  {
    if a > b {
      assert (a - b) * d > 0.0;
    }
    if a >= b {
      assert (a - b) * d >= 0.0;
    }
  }

  /** The exact floor of a fifth of an integer is Dafny's (Euclidean)
      integer division by 5. */
  lemma FloorOfFifth(num: int)
    ensures (num as real / 5.0).Floor == num / 5
  {
    var k := num / 5;
    assert 5 * k <= num < 5 * k + 5;
    assert k as real <= num as real / 5.0 < k as real + 1.0;
  }

  /** Bounds on a product by a positive factor bound the quotient. */
  lemma DivideBounds(s: real, d: real, lo: real, hi: real)
    requires 0.0 < d && lo * d <= s <= hi * d
    ensures lo <= s / d <= hi
  {
    var q := s / d;
    assert q * d == s;
    CancelFactor(lo, q, d);
    CancelFactor(q, hi, d);
  }

  lemma CastProduct(a: int, b: int)
    ensures (a * b) as real == a as real * b as real
  {
  }

  /** A mean lies between any lower and upper bound of the summands. */
  lemma MeanBetween(sum: int, n: int, lo: int, hi: int)
    requires 0 < n && n * lo <= sum <= n * hi
    ensures lo as real <= sum as real / n as real <= hi as real
  {
    CastProduct(lo, n);
    CastProduct(hi, n);
    assert lo * n <= sum <= hi * n;
    DivideBounds(sum as real, n as real, lo as real, hi as real);
  }

  lemma QuotientTimesDivisor(x: real, d: real)
    requires d != 0.0
    ensures (x / d) * d == x
  {
  }

  /** Multiplying both sides of an inequality by a positive factor. */
  lemma ScaleBy(a: real, b: real, d: real)
    requires 0.0 < d
    ensures a <= b ==> a * d <= b * d
    ensures a < b ==> a * d < b * d
  {
    if a <= b {
      assert (b - a) * d >= 0.0;
    }
    if a < b {
      assert (b - a) * d > 0.0;
    }
  }

  /** A quotient bracketed through the products of its bounds with the divisor. */
  lemma QuotientBetween(x: real, d: real, lo: real, hi: real)
    requires 0.0 < d && lo * d <= x < hi * d
    ensures lo <= x / d < hi
  {
    var q := x / d;
    QuotientTimesDivisor(x, d);
    CancelFactor(lo, q, d);
    CancelFactor(q, hi, d);
  }

  /** Bounds on a quotient bound the dividend by their products with the divisor. */
  lemma ScaleQuotient(x: real, d: real, lo: real, hi: real)
    requires 0.0 < d && lo <= x / d < hi
    ensures lo * d <= x < hi * d
  {
    var q := x / d;
    QuotientTimesDivisor(x, d);
    ScaleBy(lo, q, d);
    ScaleBy(q, hi, d);
  }

  /** Integer division brackets the dividend between multiples of the divisor. */
  lemma DivisionBrackets(s: int, n: int)
    requires 0 < n
    ensures (s / n) as real * n as real <= s as real < (s / n + 1) as real * n as real
  {
    var k := s / n;
    assert k * n <= s < (k + 1) * n;
    CastProduct(k, n);
    CastProduct(k + 1, n);
  }

  /** Truncating the exact quotient of a non-negative integer by a positive one
      is Dafny's integer division. */
  lemma TruncOfQuotient(s: int, n: int)
    requires 0 < n
    ensures 0 <= s ==> Trunc(s as real / n as real) == s / n
  {
    DivisionBrackets(s, n);
    QuotientBetween(s as real, n as real, (s / n) as real, (s / n + 1) as real);
  }

  /** The truncated quotient of a non-negative value by a positive divisor is
      the whole number of divisors the value holds. */
  lemma TruncQuotientBrackets(x: real, d: real)
    ensures 0.0 < d && 0.0 <= x ==>
              Trunc(x / d) as real * d <= x < (Trunc(x / d) + 1) as real * d
  {
    if 0.0 < d && 0.0 <= x {
      QuotientTimesDivisor(x, d);
      CancelFactor(0.0, x / d, d);
      ScaleQuotient(x, d, Trunc(x / d) as real, (Trunc(x / d) + 1) as real);
    }
  }

  /** Sum of a sequence of integers, accumulated from the front. */
  function Sum(xs: seq<int>): int
    decreases |xs|
  {
    if |xs| == 0 then 0 else Sum(xs[..|xs| - 1]) + xs[|xs| - 1]
  }

  /** Every summand bounded by `lo` and `hi` bounds the sum by |xs|·lo and |xs|·hi. */
  lemma {:induction false} SumBetween(xs: seq<int>, lo: int, hi: int)
    requires forall i :: 0 <= i < |xs| ==> lo <= xs[i] <= hi
    ensures |xs| * lo <= Sum(xs) <= |xs| * hi
    decreases |xs|
  {
    if |xs| > 0 {
      var p := xs[..|xs| - 1];
      assert forall i :: 0 <= i < |p| ==> p[i] == xs[i];
      SumBetween(p, lo, hi);
      assert |xs| * lo == |p| * lo + lo;
      assert |xs| * hi == |p| * hi + hi;
    }
  }

  /** Position of a least element. */
  function ArgMin(xs: seq<int>): (i: nat)
    requires |xs| > 0
    ensures i < |xs| && forall j :: 0 <= j < |xs| ==> xs[i] <= xs[j]
    decreases |xs|
  {
    if |xs| == 1 then 0
    else
      var k := ArgMin(xs[1..]);
      if xs[0] <= xs[1..][k] then 0 else k + 1
  }

  /** Position of a greatest element. */
  function ArgMax(xs: seq<int>): (i: nat)
    requires |xs| > 0
    ensures i < |xs| && forall j :: 0 <= j < |xs| ==> xs[j] <= xs[i]
    decreases |xs|
  {
    if |xs| == 1 then 0
    else
      var k := ArgMax(xs[1..]);
      if xs[0] >= xs[1..][k] then 0 else k + 1
  }

  /** Python's `int(mean)` of a non-empty list of integers. */
  function TruncMean(xs: seq<int>): int
    requires |xs| > 0
  {
    Trunc(Sum(xs) as real / |xs| as real)
  }

  /** The truncated mean lies between the least and the greatest element. */
  lemma MeanWithinRange(xs: seq<int>)
    requires |xs| > 0
    ensures exists i :: 0 <= i < |xs| && xs[i] <= TruncMean(xs)
    ensures exists j :: 0 <= j < |xs| && TruncMean(xs) <= xs[j]
  {
    var lo := ArgMin(xs);
    var hi := ArgMax(xs);
    SumBetween(xs, xs[lo], xs[hi]);
    var mean := Sum(xs) as real / |xs| as real;
    MeanBetween(Sum(xs), |xs|, xs[lo], xs[hi]);
    TruncMonotone(xs[lo] as real, mean);
    TruncMonotone(mean, xs[hi] as real);
    TruncOfInt(xs[lo]);
    TruncOfInt(xs[hi]);
  }

  /** Of non-negative integers, the truncated mean is the integer quotient of
      the sum by the count. */
  lemma MeanOfNonNegative(xs: seq<int>)
    requires |xs| > 0
    ensures (forall i :: 0 <= i < |xs| ==> 0 <= xs[i]) ==> TruncMean(xs) == Sum(xs) / |xs|
  {
    if forall i :: 0 <= i < |xs| ==> 0 <= xs[i] {
      SumBetween(xs, 0, xs[ArgMax(xs)]);
      TruncOfQuotient(Sum(xs), |xs|);
    }
  }
}

=== FILE: results.dfy ===
/** Failure-carrying values shared by the whole model. */
module Results {

  /** A value that may be absent (a failed lookup, an empty selection). */
  datatype Option<+T> = None | Some(value: T)

  /** Either a computed value or the error the dashboard would raise instead. */
  datatype Result<+T, +E> = Ok(value: T) | Err(error: E)
}

=== FILE: scoring.dfy ===
/** The demand-trigger evaluation of the dashboard: the boost the toggles add,
    each centre's saturation score, wait estimate and zone, and the overview
    KPIs computed from the scored table. */
module Scoring {
  import opened Results
  import opened Numeric
  import opened Centers

  /** Percentage points each trigger adds to the historical load. */
  const SchemeBoost: int := 20
  const HolidayBoost: int := 10
  const DeadlineBoost: int := 15

  /** A score above this is RED; it is also the "critical centre" threshold. */
  const RedAbove: int := 80
  /** A score above this (and not above `RedAbove`) is YELLOW. */
  const YellowAbove: int := 50

  /** Minutes of service one queued percentage point costs a counter at full
      efficiency. */
  const MinutesPerQueueUnit: int := 5

  datatype ScoringError =
    | ZeroCapacity(center: string)  // wait time divides by counters × efficiency = 0
    | EmptyTable                    // the mean wait of no rows is NaN

  // ---------------------------------------------------------------- boost

  function Boost(t: Triggers): (b: int)
    ensures 0 <= b <= 45
    ensures b in {0, 10, 15, 20, 25, 30, 35, 45}
    ensures b == 0 <==> t == NoTriggers
    ensures b == 45 <==> t == Triggers(true, true, true)
  {
    (if t.scheme then SchemeBoost else 0)
    + (if t.holiday then HolidayBoost else 0)
    + (if t.deadline then DeadlineBoost else 0)
  }

  /** Each toggle contributes on its own: the boost is the sum of the boosts of
      the three single-toggle states, whatever the others are. */
  lemma BoostAdditive(t: Triggers)
    ensures Boost(t) == Boost(Triggers(t.scheme, false, false))
                      + Boost(Triggers(false, t.holiday, false))
                      + Boost(Triggers(false, false, t.deadline))
    ensures Boost(Triggers(true, false, false)) == SchemeBoost
    ensures Boost(Triggers(false, true, false)) == HolidayBoost
    ensures Boost(Triggers(false, false, true)) == DeadlineBoost
  {
  }

  /** The trigger state a displayed "Active Boost" of `b` percent stands for. */
  function TriggersOf(b: int): (r: Option<Triggers>)
    ensures r.Some? <==> b in {0, 10, 15, 20, 25, 30, 35, 45}
  {
    match b
    case 0 => Some(Triggers(false, false, false))
    case 10 => Some(Triggers(false, true, false))
    case 15 => Some(Triggers(false, false, true))
    case 20 => Some(Triggers(true, false, false))
    case 25 => Some(Triggers(false, true, true))
    case 30 => Some(Triggers(true, true, false))
    case 35 => Some(Triggers(true, false, true))
    case 45 => Some(Triggers(true, true, true))
    case _ => None
  }

  /** The eight trigger states give eight different boosts, so the boost shown
      on the overview identifies exactly which toggles are on. */
  lemma BoostRoundTrip(t: Triggers, b: int)
    ensures TriggersOf(Boost(t)) == Some(t)
    ensures TriggersOf(b).Some? ==> Boost(TriggersOf(b).value) == b
  {
  }

  // ----------------------------------------------------------- saturation

  /** The blended load before clipping: 0.4·H + 0.4·(H + boost) + 0.2·Q. */
  function RawSaturation(c: Center, boost: int): real {
    0.4 * c.historicalLoad as real
    + 0.4 * (c.historicalLoad + boost) as real
    + 0.2 * c.realtimeQueue as real
  }

  /** Saturation score: the raw blend clipped to [0, 100] and truncated. */
  function Saturation(c: Center, boost: int): (s: int)
    ensures 0 <= s <= 100
    ensures 0.0 <= RawSaturation(c, boost) <= 100.0 ==>
              s as real <= RawSaturation(c, boost) < s as real + 1.0
    ensures 100.0 <= RawSaturation(c, boost) ==> s == 100
    ensures RawSaturation(c, boost) < 1.0 ==> s == 0
  {
    Trunc(Clip(RawSaturation(c, boost), 0.0, 100.0))
  }

  /** An integer-only reference for the score: (4·H + 2·boost + Q) div 5,
      clamped to [0, 100]. */
  function SaturationRef(c: Center, boost: int): int {
    ClampInt((4 * c.historicalLoad + 2 * boost + c.realtimeQueue) / 5, 0, 100)
  }

  lemma SaturationMatchesRef(c: Center, boost: int)
    ensures Saturation(c, boost) == SaturationRef(c, boost)
  {
    var num := 4 * c.historicalLoad + 2 * boost + c.realtimeQueue;
    var raw := RawSaturation(c, boost);
    assert raw == num as real / 5.0;
    FloorOfFifth(num);
    if raw < 0.0 {
    } else if raw > 100.0 {
    } else {
      TruncIsFloor(raw);
    }
  }

  /** Switching on more demand triggers never lowers a centre's score. */
  lemma SaturationMonotoneInBoost(c: Center, b1: int, b2: int)
    requires b1 <= b2
    ensures Saturation(c, b1) <= Saturation(c, b2)
  {
    ClipMonotone(RawSaturation(c, b1), RawSaturation(c, b2), 0.0, 100.0);
    TruncMonotone(Clip(RawSaturation(c, b1), 0.0, 100.0), Clip(RawSaturation(c, b2), 0.0, 100.0));
  }

  /** A heavier historical load or a longer live queue never lowers the score. */
  lemma SaturationMonotoneInLoad(c: Center, d: Center, boost: int)
    requires c.historicalLoad <= d.historicalLoad && c.realtimeQueue <= d.realtimeQueue
    ensures Saturation(c, boost) <= Saturation(d, boost)
  {
    ClipMonotone(RawSaturation(c, boost), RawSaturation(d, boost), 0.0, 100.0);
    TruncMonotone(Clip(RawSaturation(c, boost), 0.0, 100.0), Clip(RawSaturation(d, boost), 0.0, 100.0));
  }

  /** With in-range inputs the clip at 100 is reached with every trigger on
      only once the live queue is at least 10: at H = 100, Q = 0 the score is 98. */
  lemma SaturationAtExtremes(c: Center)
    requires c.historicalLoad == 100
    ensures c.realtimeQueue == 0 ==> Saturation(c, Boost(Triggers(true, true, true))) == 98
    ensures c.realtimeQueue >= 10 ==> Saturation(c, Boost(Triggers(true, true, true))) == 100
  {
    SaturationMatchesRef(c, 45);
  }

  lemma SaturationAtZero(c: Center)
    requires c.historicalLoad == 0 && c.realtimeQueue == 0
    ensures Saturation(c, Boost(NoTriggers)) == 0
  {
  }

  // ------------------------------------------------------------ wait time

  /** Effective service capacity: active counters × staff efficiency. */
  function Capacity(c: Center): real {
    c.activeCounters as real * c.staffEfficiency
  }

  /** Estimated wait in minutes: 5·Q / capacity, truncated. A zero capacity is
      reported as an error instead of an infinite quotient. */
  function WaitMinutes(c: Center): (r: Result<int, ScoringError>)
    ensures r.Err? <==> Capacity(c) == 0.0
    ensures r.Err? ==> r.error == ZeroCapacity(c.name)
    ensures r.Ok? && 0.0 < Capacity(c) && 0 <= c.realtimeQueue ==>
              0 <= r.value
              && r.value as real * Capacity(c) <= (MinutesPerQueueUnit * c.realtimeQueue) as real
              && (MinutesPerQueueUnit * c.realtimeQueue) as real < (r.value + 1) as real * Capacity(c)
  {
    if Capacity(c) == 0.0 then Err(ZeroCapacity(c.name))
    else
      var minutes := (c.realtimeQueue * MinutesPerQueueUnit) as real;
      TruncQuotientBrackets(minutes, Capacity(c));
      Ok(Trunc(minutes / Capacity(c)))
  }

  /** A longer queue at the same centre never shortens the estimate. */
  lemma WaitMonotoneInQueue(c: Center, q1: int, q2: int)
    requires 0.0 < Capacity(c) && q1 <= q2
    ensures WaitMinutes(c.(realtimeQueue := q1)).value <= WaitMinutes(c.(realtimeQueue := q2)).value
  {
    var cap := Capacity(c);
    var c1 := c.(realtimeQueue := q1);
    var c2 := c.(realtimeQueue := q2);
    assert Capacity(c1) == cap && Capacity(c2) == cap;
    var x1 := (q1 * MinutesPerQueueUnit) as real / cap;
    var x2 := (q2 * MinutesPerQueueUnit) as real / cap;
    assert x1 <= x2 by {
      assert x1 * cap <= x2 * cap;
    }
    TruncMonotone(x1, x2);
    assert WaitMinutes(c1) == Ok(Trunc(x1));
    assert WaitMinutes(c2) == Ok(Trunc(x2));
  }

  // ----------------------------------------------------------------- zone

  function ClassifyZone(s: int): (z: Zone)
    ensures z == Red <==> s > RedAbove
    ensures z == Yellow <==> YellowAbove < s <= RedAbove
    ensures z == Green <==> s <= YellowAbove
  {
    if s > RedAbove then Red else if s > YellowAbove then Yellow else Green
  }

  /** A higher score never gets a milder zone. */
  lemma ZoneMonotone(s1: int, s2: int)
    requires s1 <= s2
    ensures Severity(ClassifyZone(s1)) <= Severity(ClassifyZone(s2))
  {
  }

  /** The thresholds are exclusive: 80 is YELLOW and 50 is GREEN. */
  lemma ZoneBoundaries()
    ensures ClassifyZone(81) == Red && ClassifyZone(80) == Yellow
    ensures ClassifyZone(51) == Yellow && ClassifyZone(50) == Green
    ensures ClassifyZone(0) == Green
  {
  }

  // ------------------------------------------------------- scored table

  /** A row of the table the trigger evaluation returns. */
  datatype Scored = Scored(center: Center, saturation: int, wait: int, zone: Zone)

  /** The zone of a row agrees with its score. */
  predicate Consistent(row: Scored) {
    row.zone == ClassifyZone(row.saturation)
  }

  /** `row` is what the evaluation derives from centre `c` under `boost`. */
  predicate RowOf(row: Scored, c: Center, boost: int) {
    && row.center == c
    && row.saturation == Saturation(c, boost)
    && WaitMinutes(c) == Ok(row.wait)
    && Consistent(row)
  }

  /** Scores every centre in table order; fails at the first centre whose
      capacity is zero. */
  function ScoreAll(cs: seq<Center>, boost: int): (r: Result<seq<Scored>, ScoringError>)
    ensures r.Ok? <==> forall i :: 0 <= i < |cs| ==> Capacity(cs[i]) != 0.0
    ensures r.Ok? ==> |r.value| == |cs| && forall i :: 0 <= i < |cs| ==> RowOf(r.value[i], cs[i], boost)
    ensures r.Err? ==> exists i :: 0 <= i < |cs| && Capacity(cs[i]) == 0.0
                                  && r.error == ZeroCapacity(cs[i].name)
                                  && forall k :: 0 <= k < i ==> Capacity(cs[k]) != 0.0
    decreases |cs|
  {
    if |cs| == 0 then Ok([])
    else
      match WaitMinutes(cs[0])
      case Err(e) => Err(e)
      case Ok(w) =>
        match ScoreAll(cs[1..], boost)
        case Err(e) => Err(e)
        case Ok(rest) =>
          var s := Saturation(cs[0], boost);
          Ok([Scored(cs[0], s, w, ClassifyZone(s))] + rest)
  }

  /** The scored table together with the boost that produced it. */
  datatype Evaluation = Evaluation(rows: seq<Scored>, boost: int)

  /** Evaluates the table under a trigger state. */
  function ApplyTriggers(cs: seq<Center>, t: Triggers): (r: Result<Evaluation, ScoringError>)
    ensures r.Ok? <==> forall i :: 0 <= i < |cs| ==> Capacity(cs[i]) != 0.0
    ensures r.Ok? ==> r.value.boost == Boost(t) && |r.value.rows| == |cs|
                      && forall i :: 0 <= i < |cs| ==> RowOf(r.value.rows[i], cs[i], Boost(t))
  {
    match ScoreAll(cs, Boost(t))
    case Err(e) => Err(e)
    case Ok(rows) => Ok(Evaluation(rows, Boost(t)))
  }

  // ----------------------------------------------------------------- KPIs

  /** Number of rows whose score exceeds `k`. */
  function CountAbove(rows: seq<Scored>, k: int): (n: nat)
    ensures n <= |rows|
    decreases |rows|
  {
    if |rows| == 0 then 0
    else CountAbove(rows[..|rows| - 1], k) + (if rows[|rows| - 1].saturation > k then 1 else 0)
  }

  /** Number of rows in zone `z`. */
  function CountZone(rows: seq<Scored>, z: Zone): (n: nat)
    ensures n <= |rows|
    decreases |rows|
  {
    if |rows| == 0 then 0
    else CountZone(rows[..|rows| - 1], z) + (if rows[|rows| - 1].zone == z then 1 else 0)
  }

  /** The count above `k` is zero exactly when no row scores above `k`, and
      is the whole table exactly when every row does. */
  lemma {:induction false} CountAboveExtremes(rows: seq<Scored>, k: int)
    ensures CountAbove(rows, k) == 0 <==> forall i :: 0 <= i < |rows| ==> rows[i].saturation <= k
    ensures CountAbove(rows, k) == |rows| <==> forall i :: 0 <= i < |rows| ==> rows[i].saturation > k
    decreases |rows|
  {
    if |rows| > 0 {
      var p := rows[..|rows| - 1];
      assert forall i :: 0 <= i < |p| ==> p[i] == rows[i];
      CountAboveExtremes(p, k);
    }
  }

  /** The count of zone `z` is zero exactly when no row is in `z`, and is the
      whole table exactly when every row is. */
  lemma {:induction false} CountZoneExtremes(rows: seq<Scored>, z: Zone)
    ensures CountZone(rows, z) == 0 <==> forall i :: 0 <= i < |rows| ==> rows[i].zone != z
    ensures CountZone(rows, z) == |rows| <==> forall i :: 0 <= i < |rows| ==> rows[i].zone == z
    decreases |rows|
  {
    if |rows| > 0 {
      var p := rows[..|rows| - 1];
      assert forall i :: 0 <= i < |p| ==> p[i] == rows[i];
      CountZoneExtremes(p, z);
    }
  }

  /** On consistent rows, counting scores above 80 counts the RED zones. */
  lemma {:induction false} AboveRedIsRed(rows: seq<Scored>)
    requires forall i :: 0 <= i < |rows| ==> Consistent(rows[i])
    ensures CountAbove(rows, RedAbove) == CountZone(rows, Red)
    decreases |rows|
  {
    if |rows| > 0 {
      var p := rows[..|rows| - 1];
      assert forall i :: 0 <= i < |p| ==> p[i] == rows[i];
      AboveRedIsRed(p);
    }
  }

  /** The "Critical Centers" KPI: rows scoring above 80. */
  method CriticalCenters(rows: seq<Scored>) returns (n: nat)
    ensures n == CountAbove(rows, RedAbove)
    ensures (forall i :: 0 <= i < |rows| ==> Consistent(rows[i])) ==> n == CountZone(rows, Red)
  {
    n := 0;
    var i := 0;
    while i < |rows|
      invariant 0 <= i <= |rows|
      invariant n == CountAbove(rows[..i], RedAbove)
    {
      assert rows[..i + 1][..i] == rows[..i];
      if rows[i].saturation > RedAbove {
        n := n + 1;
      }
      i := i + 1;
    }
    assert rows[..|rows|] == rows;
    if forall k :: 0 <= k < |rows| ==> Consistent(rows[k]) {
      AboveRedIsRed(rows);
    }
  }

  function Waits(rows: seq<Scored>): (ws: seq<int>)
    ensures |ws| == |rows| && forall i :: 0 <= i < |rows| ==> ws[i] == rows[i].wait
  {
    seq(|rows|, i requires 0 <= i < |rows| => rows[i].wait)
  }

  /** The "Avg Wait Time" KPI: the mean wait, truncated; the mean of an empty
      table is NaN, which `int` rejects. */
  function AverageWait(rows: seq<Scored>): (r: Result<int, ScoringError>)
    ensures r.Err? <==> |rows| == 0
    ensures r.Err? ==> r.error == EmptyTable
    ensures r.Ok? ==> exists i :: 0 <= i < |rows| && rows[i].wait <= r.value
    ensures r.Ok? ==> exists j :: 0 <= j < |rows| && r.value <= rows[j].wait
    ensures r.Ok? && (forall i :: 0 <= i < |rows| ==> 0 <= rows[i].wait) ==>
              r.value == Sum(Waits(rows)) / |rows|
  {
    if |rows| == 0 then Err(EmptyTable)
    else
      var ws := Waits(rows);
      MeanWithinRange(ws);
      MeanOfNonNegative(ws);
      Ok(TruncMean(ws))
  }

  // -------------------------------------------------------------- samples

  /** Napier Town with no trigger: 0.4·65 + 0.4·65 + 0.2·80 = 68 (YELLOW), and
      80·5 / (5·0.9) = 88.9 minutes, shown as 88. */
  lemma NapierTownSample()
    ensures Saturation(BaseTable[0], Boost(NoTriggers)) == 68
    ensures ClassifyZone(68) == Yellow
    ensures WaitMinutes(BaseTable[0]) == Ok(88)
  {
    SaturationMatchesRef(BaseTable[0], 0);
    var q := (80 * MinutesPerQueueUnit) as real / Capacity(BaseTable[0]);
    assert Capacity(BaseTable[0]) == 4.5;
    assert 88.0 <= q < 89.0 by {
      assert q * 4.5 == 400.0;
    }
  }
}
